=== FILE: README.md ===
# cxx-utils in Dafny: byte utilities and lazy self-reference

A Dafny model of the three headers of the `cxx-utils` C++ library:

- `utils::swapEndian` (SwapEndian.hpp) reverses the bytes of a fixed-width value.
- `utils::useBytesAs` (UseBytesAs.hpp) copies `sizeof(OutputType)` bytes out of a
  `std::vector` or `std::array` and reads them as an integer.
- `utils::lazy` (LazyWrap.hpp) holds three pieces:
  - `LazyWrap<Type>` calls its stored getter on every access.
  - `enable_lazy_from_this<Type>` hands out a cached `LazyWrap` whose getter
    resolves the object to its own `std::shared_ptr`.
  - `lazy_cast` turns such a wrapper into one of a base class.

Layout, one module per file:

- `wrappers.dfy`, module `Wrappers`: `Option`, for null and non-null pointers.
- `bytes.dfy`, module `Bytes`: holds the following.
  - Bytes, as a `newtype` over 0..255.
  - The host byte order `Endian`, which is a parameter everywhere.
  - Fixed-width integer types `IntType(size, signed)`. Signed values use two's complement.
  - Little- and big-endian codecs. `ValueOf` and `BytesOf` are the union's two views of one object.
- `swap_endian.dfy`, module `SwapEndian`: `swapEndian` on integer types.
- `use_bytes_as.dfy`, module `UseBytesAs`: `useBytesAs` on integer output
  types. A container is its memory image plus `sizeof(InputType)`.
- `lazy.dfy`, module `Lazy`: the generic `LazyWrap<Type>`. Its getter runs against a
  state, so side effects and repeated calls are visible.
- `lazy_world.dfy`, module `LazyWorld`: the world the mixin lives in. It holds:
  - a class hierarchy (`is_base_of`);
  - host objects with their declared `Type`, most-derived class, getter and cache;
  - the set of objects a `std::shared_ptr` currently owns;
  - a heap of wrappers under fresh ids.

  The library's closures are data (`SelfGetter`, `CastGetter`). `Eval` says what
  calling one does in a given world.
- `lazy_cast.dfy`, module `LazyCasts`: `lazy_cast` for
  `std::shared_ptr<LazyWrap<std::shared_ptr<Derive>>>`.
- `lazy_from_this.dfy`, module `LazyFromThis`: holds the following.
  - The `enable_lazy_from_this` constructor.
  - Both `lazy_from_this` overloads.
  - `Own`, where a `std::shared_ptr` takes ownership. This step is the caller's, not the library's.
  - The invariant `Valid` and its preservation.
  - Two `Base`/`Derived` scenarios: one with the mixin on `Base`, one on `Derived`.

Several kinds of outside behaviour become parameters or data:

- The host's byte order is a parameter.
- Resolving a wrapper before any `std::shared_ptr` owns the object calls
  `shared_from_this()` (LazyWrap.hpp:75). That throws `std::bad_weak_ptr`, as in
  C++17. This is the outcome `BadWeakPtr`.
- `lazy_cast` of a null wrapper pointer returns null and builds no wrapper
  (LazyWrap.hpp:117-118).
- A failed `dynamic_cast` leads to a call through a null pointer. This is the outcome `Undefined`.

## Model

| member | source | states |
|---|---|---|
| Bytes.BytesOf | SwapEndian.hpp:19-23 | the union's byte view of a value has `sizeof(Type)` bytes, and reading it back as the value gives that value |
| Bytes.ValueOf | SwapEndian.hpp:19-27 | the union's value view of `sizeof(Type)` bytes is a value of `Type`: the unsigned reading of the bytes in host order, less `2^(8*sizeof(Type))` exactly when the type is signed and the top bit is set |
| Bytes.BytesOfValueOf | SwapEndian.hpp:19-23 | every byte image of the right size is the image of the value it reads as, so the two union views are inverse |
| Bytes.FromBits | UseBytesAs.hpp:38-42 | a bit pattern read as a signed or unsigned type gives a value of that type, congruent to the pattern, and negative exactly when the sign bit is set |
| Bytes.DecodeEncode | SwapEndian.hpp:19-23 | reading the bytes of an encoded number gives that number back, in either byte order |
| Bytes.EncodeDecode | SwapEndian.hpp:19-23 | encoding the number some bytes read as gives those bytes back, in either byte order |
| SwapEndian.SwapBytes | SwapEndian.hpp:26 | copying from `rbegin` to `rend` gives as many bytes as it read, and byte `i` of the output is byte `n-1-i` of the input |
| SwapEndian.SwapBytesInvolution | SwapEndian.hpp:26 | reversing the bytes twice restores them |
| SwapEndian.SwapBytesReversesByteOrder | SwapEndian.hpp:26 | the reversed bytes read little-endian give what the original bytes give read big-endian |
| SwapEndian.SwapEndian | SwapEndian.hpp:16-28 | the result is a value of the same type, and its byte image is the input's image reversed |
| SwapEndian.SwapEndianBytewise | SwapEndian.hpp:25-27 | byte `i` of the result is byte `sizeof(Type)-1-i` of the input |
| SwapEndian.SwapEndianInvolution | SwapEndian.hpp:16-28 | swapping twice gives back the original value |
| SwapEndian.SwapEndianOneByte | SwapEndian.hpp:26 | a one-byte value comes back unchanged |
| SwapEndian.SwapEndianReadsOppositeOrder | SwapEndian.hpp:16-28 | the result is the value's own image read in the opposite byte order |
| SwapEndian.SwapEndianHostIndependent | SwapEndian.hpp:16-28 | the result is the same on little- and big-endian hosts |
| SwapEndian.SwapEndianDocExample | SwapEndian.hpp:36-40 | `0x22224444` swaps to `0x44442222` on any host |
| SwapEndian.SwapEndianScenario | SwapEndian.hpp:16-28 | `0x12345678` swaps to `0x78563412` on any host |
| UseBytesAs.Memcpy | UseBytesAs.hpp:55 | the copy is exactly the `count` bytes starting at the source index |
| UseBytesAs.UseBytesAs | UseBytesAs.hpp:52-57 | with the window inside the container, the result is a value of the output type whose image is exactly the `sizeof(OutputType)` bytes from byte `offset*sizeof(InputType)` |
| UseBytesAs.UseBytesAsReadsNothingElse | UseBytesAs.hpp:55 | two containers that agree on the window give the same result, whatever their other bytes |
| UseBytesAs.UseBytesAsDefaultOffset | UseBytesAs.hpp:52 | the default `offset = 0` reads the first `sizeof(OutputType)` bytes |
| UseBytesAs.DropElements | UseBytesAs.hpp:55 | dropping `k` elements leaves a container of `size-k` elements whose bytes are the original's from byte `k*sizeof(InputType)` on |
| UseBytesAs.UseBytesAsShift | UseBytesAs.hpp:55 | reading at `offset+k` equals reading at `offset` from the container without its first `k` elements |
| UseBytesAs.UseBytesAsDocExample | UseBytesAs.hpp:66-70 | `{2,4,12,5}` reads as `uint16_t` `0x0402` and as `uint32_t` `0x050C0402` on a little-endian host |
| UseBytesAs.UseBytesAsBigEndianExample | UseBytesAs.hpp:66-69 | `{2,4,12,5}` reads as `uint16_t` `0x0204` on a big-endian host |
| UseBytesAs.UseBytesAsWritten | UseBytesAs.hpp:55 | as written, the copy starts at byte `offset*sizeof(InputType)*sizeof(InputType)` |
| UseBytesAs.WrittenAgreesOnByteContainers | UseBytesAs.hpp:55 | with one-byte elements, as in the documented examples, the code as written reads the intended window |
| UseBytesAs.WrittenSkipsElements | UseBytesAs.hpp:55 | for a `uint16_t` container `{1,2,3,4}` at offset 1, the intended read gives 2 but the code as written gives 3 |
| Lazy.AccessCallsStoredGetter | LazyWrap.hpp:23-31 | `getLazybones()` calls the getter the constructor stored: one access gives the getter's result in the current state, and a second access starts from the state the first one left |
| Lazy.GetRepeatedly | LazyWrap.hpp:28-31 | `k` accesses give `k` answers |
| Lazy.EveryAccessCallsGetter | LazyWrap.hpp:21-31 | construction does not call the getter, and each access calls it exactly once: a counting getter sees `s, s+1, ..., s+k-1` and ends at `s+k` |
| Lazy.PureGetterRepeats | LazyWrap.hpp:28-31 | a getter without side effects gives the current state's answer on every access and leaves the state alone |
| LazyWorld.SharedFromThis | LazyWrap.hpp:75 | `shared_from_this` gives an owning pointer to the object itself or throws `bad_weak_ptr` |
| LazyWorld.Eval | LazyWrap.hpp:68-126 | calling a getter: the self getter of lines 68-76, and the cast lambda of lines 121-126, which calls its source twice; any non-null pointer it returns owns an object that is currently owned, and is seen as the getter's static type |
| LazyWorld.EvalOfNullChain | LazyWrap.hpp:121-123 | a chain of casts over a getter that answers `nullptr` answers null in every world |
| LazyWorld.EvalResolvesToRoot | LazyWrap.hpp:68-76 | any chain of well-typed casts over a self getter gives its object, seen as the chain's static type, while owned, and `bad_weak_ptr` while not |
| LazyWorld.MakeLazyWrap | LazyWrap.hpp:82 | `make_shared` stores the getter under a fresh id without calling it, and changes nothing else |
| LazyWorld.MakeLazyWrapPreservesValid | LazyWrap.hpp:82 | storing a well-typed getter keeps the world invariant |
| LazyWorld.GetLazybones | LazyWrap.hpp:28-31 | a wrapper's answer, taken in the current world, only ever points at an owned object |
| LazyWorld.GettersHaveNoSideEffects | LazyWrap.hpp:28-31 | the library's getters give the current world's answer on every call and change nothing |
| LazyCasts.UpcastOutcome | LazyWrap.hpp:121-126 | the intended cast answer is null exactly when the source answer is null; an object keeps its identity and is seen as `Base`; a `bad_weak_ptr` throw or undefined behaviour passes through unchanged |
| LazyCasts.LazyCast | LazyWrap.hpp:109-128 | a null source gives null and changes nothing; otherwise a fresh wrapper capturing the source, with the invariant kept |
| LazyCasts.CastEvaluation | LazyWrap.hpp:121-126 | for the modelled getters (the library's own and a caller's null getter, none with side effects), calling the source twice, as the code does, equals one call upcast: null stays null, an object is seen as `Base`, a throw passes through |
| LazyCasts.LazyCastOfNullAnswer | LazyWrap.hpp:120-123 | a cast of a caller's wrapper whose getter answers `nullptr` answers null in every later world |
| LazyCasts.LazyCastWrapperEvaluation | LazyWrap.hpp:120-126 | in every later world the cast wrapper answers what its source answers there, upcast, so nothing stale is kept |
| LazyCasts.CastComposes | LazyWrap.hpp:109-126 | for a well-typed nesting in a transitive hierarchy, casting to an intermediate class and then to a base equals casting straight to the base |
| LazyFromThis.NewHost | LazyWrap.hpp:68-77 | construction installs the self getter with an empty cache, on a fresh object; every other object is unchanged; it calls nothing and makes no wrapper |
| LazyFromThis.NewHostPreservesValid | LazyWrap.hpp:68-77 | construction keeps the world invariant |
| LazyFromThis.LazyFromThis | LazyWrap.hpp:79-84 | with a filled cache it returns the cached wrapper and changes nothing; otherwise it stores the getter under a fresh id and caches it; no other object's cache changes, no other wrapper appears, and ownership is untouched |
| LazyFromThis.LazyFromThisPreservesValid | LazyWrap.hpp:79-84 | `lazy_from_this()` keeps the world invariant |
| LazyFromThis.LazyFromThisIdempotent | LazyWrap.hpp:79-84 | a second call returns the same wrapper and leaves the world as the first left it |
| LazyFromThis.LazyFromThisStable | LazyWrap.hpp:79-84 | in every later world, `lazy_from_this()` returns the first wrapper and changes nothing |
| LazyFromThis.SelfWrapperResolves | LazyWrap.hpp:68-76 | in every later world the cached wrapper gives the object itself while owned and `bad_weak_ptr` while not |
| LazyFromThis.MisdeclaredHostIsUndefined | LazyWrap.hpp:72-75 | if the object is not an instance of its declared `Type`, calling the wrapper is undefined |
| LazyFromThis.LazyFromThisAs | LazyWrap.hpp:86-94 | returns a fresh wrapper that casts the self getter to `Base`, fills the cache if it was empty, keeps a filled cache, leaves every other object alone, adds no wrapper beyond these two, and keeps the invariant |
| LazyFromThis.BaseWrapperResolves | LazyWrap.hpp:86-94 | in every later world the `Base` wrapper answers the cached wrapper's answer upcast: the same object as `Base` while owned |
| LazyFromThis.LazyFromThisAsIsFresh | LazyWrap.hpp:86-94 | two calls give two different wrappers around the same cached one |
| LazyFromThis.ResolutionIsDeferred | LazyWrap.hpp:68-84 | a wrapper taken before ownership throws `bad_weak_ptr` then, and the same wrapper gives the object once owned |
| LazyFromThis.DerivedScenario | LazyWrap.hpp:53-94 | for a `make_shared<Derived>` object, `lazy_from_this()` and `lazy_from_this<Base>()` both give the object, the cache stays the same, and the `Base` wrappers are distinct |
| LazyFromThis.StrictUpcastScenario | LazyWrap.hpp:53-126 | when `Derived` derives from `enable_lazy_from_this<Derived>` and from a plain `Base`, `lazy_from_this()` gives the object as a `Derived` and `lazy_from_this<Base>()` gives the same object as a `Base` |

## Left out

- Both `Lazy` and `LazyWorld` model getters. `Lazy` models an arbitrary getter as a
  state-threading function. `LazyWorld` models, as data, the closures the library itself
  builds plus a caller's getter that answers `nullptr`, so that worlds can be
  compared.
- The `std::weak_ptr` overload of `lazy_cast` (LazyWrap.hpp:130-149) is not modelled.
  It applies `not` and `->` to a `weak_ptr`, so it does not compile when instantiated.
- The by-value overload of `lazy_cast` (LazyWrap.hpp:151-170) is not modelled either.
  It tests `not derive` on a `LazyWrap` and returns `{}` although the default
  constructor is deleted. It does not compile when instantiated.
- `ILazy` (LazyWrap.hpp:37-44) declares a pure virtual function and has no behaviour.
- LazyWrap.hpp:82 names the alias template `_TypedLazyWrap` without its argument. The
  model caches a `LazyWrap<std::shared_ptr<Type>>`, which is the evident intent.
- Reference counting, destruction and dangling pointers are not modelled. No
  operation releases ownership, objects are never destroyed, and a later world
  keeps every owned object owned.
- Concurrency is not modelled. The first cache fill in `lazy_from_this()` is
  unguarded, and the model is single-threaded.
- The `not derive` test inside the cast lambda (LazyWrap.hpp:122) is not modelled,
  because the captured pointer was tested non-null when the cast was made.
- The `is_array_or_vector` and `enable_if` constraints (UseBytesAs.hpp:17-36, 48-50)
  are type filters. They appear only as the positive `Width` of element and output
  types. The `is_base_of` constraints appear as `requires` on `IsBaseOf`.
- Floating-point output types are not modelled. Only integer types are.
- `swapEndian` over floating-point and class types is not modelled, only over
  integer types. One reason is that the byte-reversed image of a float may be a
  NaN, and returning it by value can change its bits.
- An explicit `InputType` that differs from `Container::value_type`
  (UseBytesAs.hpp:46) is not modelled. The model gives one element size to both.
- Assigning to, or moving from, a `LazyWrap` reached through a `std::shared_ptr`
  is not modelled. `LazyWrap` (LazyWrap.hpp:17-35) keeps its implicit copy and
  move assignment, and `lazy_from_this()` hands out a pointer to a non-const
  wrapper. In C++ the cached wrapper, and every cast built from it (the lambda
  captures the pointer, LazyWrap.hpp:121), would then follow the new getter. In
  the model a stored wrapper's getter never changes in a later world (`Extends`),
  so the "every later world" lemmas rely on that.
- UseBytesAs.UseBytesAs: the `size_t` wrap-around of `offset * sizeof(InputType)`
  (UseBytesAs.hpp:55) is not modelled. The product is an unbounded integer, so
  `InBounds` refuses an offset whose product, wrapped modulo 2^64, would land
  inside the container.
- Copying or assigning an object derived from `enable_lazy_from_this` is not
  modelled. The class (LazyWrap.hpp:53-99) keeps its implicit copy constructor
  and copy assignment. In C++ the copy keeps the original's getter, whose lambda
  captured the original's `this` (LazyWrap.hpp:70), and shares its cached
  wrapper, so the copy's `lazy_from_this()` resolves to the original. In the
  model every object's getter names the object itself.
- The union and `memcpy` mechanics are modelled only through their effect on byte
  sequences.
- The `std::cout` usage in the header examples is not modelled.
- `lazy_cast` over a caller's stateful getter is not modelled. The only caller-built
  getter modelled is one that answers `nullptr`. The cast lambda calls its source
  twice per access (LazyWrap.hpp:122 and 125). With a stateful getter that answers
  non-null and then null, line 125 would call through a null pointer.
- LazyFromThis.LazyFromThisAs: requires the world invariant `Valid`. Every world the
  modelled operations build keeps it (see the `...PreservesValid` lemmas), and the
  invariant ensures a filled cache names a stored self wrapper.

## Findings

| source | as written | input that shows it | evidently intended | confidence | as-written member | corrected member |
|---|---|---|---|---|---|---|
| UseBytesAs.hpp:55 | the offset is scaled by `sizeof(InputType)` and then added to the typed pointer `container.data()`, a `value_type*`, so the copy starts at byte `offset*sizeof(InputType)*sizeof(value_type)`; with the default `InputType = value_type` the model uses, that is `offset*sizeof(InputType)^2` | `useBytesAs<uint16_t>` on a `std::vector<uint16_t>{1,2,3,4}` with offset 1 reads element 2 (value 3) instead of element 1 (value 2) | offset counted in elements: copy from byte `offset*sizeof(InputType)` | high; not executed | UseBytesAs.WrittenSkipsElements | UseBytesAs.UseBytesAs |

=== FILE: bytes.dfy ===
/**
 * The byte-level vocabulary shared by the byte utilities: bytes, the host's
 * byte order, fixed-width integer types, and the little- and big-endian
 * codecs that relate an integer to the bytes it occupies in memory.
 */
module Bytes {

  /** One byte of memory (`uint8_t`). */
  newtype byte = b: int | 0 <= b < 256

  /** A `sizeof`: every object occupies at least one byte. */
  type Width = n: nat | 1 <= n witness 1

  /** The byte order of the host the value lives on. */
  datatype Endian = Little | Big {

    function Opposite(): (e: Endian)
      ensures e != this
    {
      if Little? then Big else Little
    }
  }

  function Pow256(n: nat): (r: nat)
    ensures r >= 1
  {
    if n == 0 then 1 else 256 * Pow256(n - 1)
  }

  lemma {:induction false} Pow256Even(n: nat)
    requires n >= 1
    ensures Pow256(n) % 2 == 0
  {
    assert Pow256(n) == 2 * (128 * Pow256(n - 1));
  }

  /** Little-endian reading: byte 0 is the least significant. */
  function DecodeLE(s: seq<byte>): (r: nat)
    ensures r < Pow256(|s|)
  {
    if |s| == 0 then 0 else s[0] as nat + 256 * DecodeLE(s[1..])
  }

  /** Big-endian reading: the last byte is the least significant. */
  function DecodeBE(s: seq<byte>): (r: nat)
    ensures r < Pow256(|s|)
  {
    if |s| == 0 then 0 else 256 * DecodeBE(s[..|s| - 1]) + s[|s| - 1] as nat
  }

  lemma DivStep(n: nat, x: nat)
    requires n >= 1 && x < Pow256(n)
    ensures x / 256 < Pow256(n - 1)
  {
  }

  /** The low byte and the remaining high part of `x` put back together give `x`. */
  lemma ByteSplit(x: nat)
    ensures ((x % 256) as byte) as nat == x % 256
    ensures x == (x % 256) + 256 * (x / 256)
  {
  }

  /** Splitting a byte off `b + 256 * y` gives back `b` and `y`. */
  lemma ByteJoin(b: byte, y: nat)
    ensures (b as nat + 256 * y) % 256 == b as nat
    ensures (b as nat + 256 * y) / 256 == y
  {
  }

  function EncodeLE(n: nat, x: nat): (r: seq<byte>)
    requires x < Pow256(n)
    ensures |r| == n
  {
    if n == 0 then []
    else
      DivStep(n, x);
      [(x % 256) as byte] + EncodeLE(n - 1, x / 256)
  }

  function EncodeBE(n: nat, x: nat): (r: seq<byte>)
    requires x < Pow256(n)
    ensures |r| == n
  {
    if n == 0 then []
    else
      DivStep(n, x);
      EncodeBE(n - 1, x / 256) + [(x % 256) as byte]
  }

  function Decode(e: Endian, s: seq<byte>): (r: nat)
    ensures r < Pow256(|s|)
  {
    match e
    case Little => DecodeLE(s)
    case Big => DecodeBE(s)
  }

  function Encode(e: Endian, n: nat, x: nat): (r: seq<byte>)
    requires x < Pow256(n)
    ensures |r| == n
  {
    match e
    case Little => EncodeLE(n, x)
    case Big => EncodeBE(n, x)
  }

  lemma {:induction false} DecodeEncodeLE(n: nat, x: nat)
    requires x < Pow256(n)
    ensures DecodeLE(EncodeLE(n, x)) == x
  {
    if n > 0 {
      DivStep(n, x);
      ByteSplit(x);
      var s := EncodeLE(n, x);
      assert s[0] as nat == x % 256;
      assert s[1..] == EncodeLE(n - 1, x / 256);
      DecodeEncodeLE(n - 1, x / 256);
      assert DecodeLE(s) == s[0] as nat + 256 * DecodeLE(s[1..]);
    }
  }

  lemma {:induction false} DecodeEncodeBE(n: nat, x: nat)
    requires x < Pow256(n)
    ensures DecodeBE(EncodeBE(n, x)) == x
  {
    if n > 0 {
      DivStep(n, x);
      ByteSplit(x);
      var s := EncodeBE(n, x);
      assert s[n - 1] as nat == x % 256;
      assert s[..n - 1] == EncodeBE(n - 1, x / 256);
      DecodeEncodeBE(n - 1, x / 256);
      assert DecodeBE(s) == 256 * DecodeBE(s[..n - 1]) + s[n - 1] as nat;
    }
  }

  lemma {:induction false} EncodeDecodeLE(s: seq<byte>)
    ensures EncodeLE(|s|, DecodeLE(s)) == s
  {
    if |s| > 0 {
      var x := DecodeLE(s);
      ByteJoin(s[0], DecodeLE(s[1..]));
      assert x % 256 == s[0] as nat && x / 256 == DecodeLE(s[1..]);
      EncodeDecodeLE(s[1..]);
      assert ((x % 256) as byte) == s[0];
      assert s == [s[0]] + s[1..];
    }
  }

  lemma {:induction false} EncodeDecodeBE(s: seq<byte>)
    ensures EncodeBE(|s|, DecodeBE(s)) == s
  {
    if |s| > 0 {
      var n := |s|;
      var x := DecodeBE(s);
      ByteJoin(s[n - 1], DecodeBE(s[..n - 1]));
      assert x % 256 == s[n - 1] as nat && x / 256 == DecodeBE(s[..n - 1]);
      EncodeDecodeBE(s[..n - 1]);
      assert ((x % 256) as byte) == s[n - 1];
      assert s == s[..n - 1] + [s[n - 1]];
    }
  }

  /** Little-endian reading of a four-byte image, written out. */
  lemma DecodeLE4(b0: byte, b1: byte, b2: byte, b3: byte)
    ensures DecodeLE([b0, b1, b2, b3]) == b0 as nat + 0x100 * b1 as nat + 0x1_0000 * b2 as nat + 0x100_0000 * b3 as nat
  {
    var s := [b0, b1, b2, b3];
    assert s[1..] == [b1, b2, b3];
    assert s[1..][1..] == [b2, b3];
    assert s[1..][1..][1..] == [b3];
    assert s[1..][1..][1..][1..] == [];
    assert DecodeLE([b3]) == b3 as nat;
    assert DecodeLE([b2, b3]) == b2 as nat + 0x100 * b3 as nat;
    assert DecodeLE([b1, b2, b3]) == b1 as nat + 0x100 * b2 as nat + 0x1_0000 * b3 as nat;
  }

  /** Decoding inverts encoding, in either byte order. */
  lemma DecodeEncode(e: Endian, n: nat, x: nat)
    requires x < Pow256(n)
    ensures Decode(e, Encode(e, n, x)) == x
  {
    match e
    case Little => DecodeEncodeLE(n, x);
    case Big => DecodeEncodeBE(n, x);
  }

  /** Encoding inverts decoding, in either byte order. */
  lemma EncodeDecode(e: Endian, s: seq<byte>)
    ensures Encode(e, |s|, Decode(e, s)) == s
  {
    match e
    case Little => EncodeDecodeLE(s);
    case Big => EncodeDecodeBE(s);
  }

  /**
   * A fixed-width integer type (`uint8_t`, `int16_t`, `uint32_t`, ...):
   * `size` is its `sizeof`, and signed types use two's complement.
   */
  datatype IntType = IntType(size: Width, signed: bool) {

    function Modulus(): (m: nat)
      ensures m >= 256
    {
      Pow256(size)
    }

    /** The values the type can hold. */
    predicate Contains(x: int) {
      if signed then -(Modulus() / 2) <= x < Modulus() / 2 else 0 <= x < Modulus()
    }
  }

  const U8 := IntType(1, false)
  const U16 := IntType(2, false)
  const U32 := IntType(4, false)
  const I16 := IntType(2, true)

  /** Reads an unsigned bit pattern as a value of `t` (two's complement when signed). */
  function FromBits(t: IntType, u: nat): (x: int)
    requires u < t.Modulus()
    ensures t.Contains(x)
    ensures x == u || x == u - t.Modulus()
    ensures x < 0 <==> t.signed && u >= t.Modulus() / 2
  {
    Pow256Even(t.size);
    if t.signed && u >= t.Modulus() / 2 then u - t.Modulus() else u
  }

  /** The unsigned bit pattern of a value of `t`. */
  function ToBits(t: IntType, x: int): (u: nat)
    requires t.Contains(x)
    ensures u < t.Modulus()
    ensures u == x || u == x + t.Modulus()
  {
    if x < 0 then x + t.Modulus() else x
  }

  lemma BitsRoundTrip(t: IntType, x: int)
    requires t.Contains(x)
    ensures FromBits(t, ToBits(t, x)) == x
  {
    Pow256Even(t.size);
  }

  lemma ValueRoundTrip(t: IntType, u: nat)
    requires u < t.Modulus()
    ensures ToBits(t, FromBits(t, u)) == u
  {
  }

  /** The value of type `t` whose in-memory image on a `host` machine is `bytes`. */
  function ValueOf(t: IntType, host: Endian, bytes: seq<byte>): (x: int)
    requires |bytes| == t.size
    ensures t.Contains(x)
    ensures x == Decode(host, bytes) || x == Decode(host, bytes) - t.Modulus()
    ensures x < 0 <==> t.signed && Decode(host, bytes) >= t.Modulus() / 2
  {
    FromBits(t, Decode(host, bytes))
  }

  /** The in-memory image of the value `x` of type `t` on a `host` machine. */
  function BytesOf(t: IntType, host: Endian, x: int): (bytes: seq<byte>)
    requires t.Contains(x)
    ensures |bytes| == t.size
    ensures ValueOf(t, host, bytes) == x
  {
    var bytes := Encode(host, t.size, ToBits(t, x));
    DecodeEncode(host, t.size, ToBits(t, x));
    BitsRoundTrip(t, x);
    bytes
  }

  /** Every image of the right size is the image of exactly one value. */
  lemma {:induction false} BytesOfValueOf(t: IntType, host: Endian, bytes: seq<byte>)
    requires |bytes| == t.size
    ensures BytesOf(t, host, ValueOf(t, host, bytes)) == bytes
  {
    var u := Decode(host, bytes);
    ValueRoundTrip(t, u);
    EncodeDecode(host, bytes);
  }
}

=== FILE: lazy.dfy ===
/**
 * `utils::lazy::LazyWrap<Type>`: a value computed by a stored getter each
 * time it is asked for. The getter may have side effects, so it is modelled
 * as running against a state `S` and returning the state after the call.
 * There is no default constructor: every `LazyWrap` carries a getter.
 */
module Lazy {

  datatype LazyWrap<!S, T> = LazyWrap(getter: S -> (T, S))

  /** `getLazybones()`: calls the stored getter, now, in the current state. */
  function GetLazybones<S, T>(w: LazyWrap<S, T>, s: S): (T, S) {
    w.getter(s)
  }

  /** `k` successive `getLazybones()` calls, each starting where the previous one left the state. */
  function GetRepeatedly<S, T>(w: LazyWrap<S, T>, s: S, k: nat): (r: (seq<T>, S))
    ensures |r.0| == k
    decreases k
  {
    if k == 0 then ([], s)
    else
      var (x, s1) := GetLazybones(w, s);
      var (xs, s2) := GetRepeatedly(w, s1, k - 1);
      ([x] + xs, s2)
  }

  /**
   * What the constructor stores is what every access calls: one access answers
   * the getter's result in the current state, and a second access starts from
   * the state the first one left.
   */
  lemma AccessCallsStoredGetter<S, T>(f: S -> (T, S), s: S)
    ensures GetLazybones(LazyWrap(f), s) == f(s)
    ensures GetRepeatedly(LazyWrap(f), s, 2) == ([f(s).0, f(f(s).1).0], f(f(s).1).1)
  {
    var w := LazyWrap(f);
    var s1 := f(s).1;
    var s2 := f(s1).1;
    assert GetRepeatedly(w, s2, 0) == ([], s2);
    assert GetLazybones(w, s1) == (f(s1).0, s2);
    assert [f(s1).0] + [] == [f(s1).0];
    assert GetRepeatedly(w, s1, 1) == ([f(s1).0], s2);
    assert [f(s).0] + [f(s1).0] == [f(s).0, f(s1).0];
    assert GetLazybones(w, s) == (f(s).0, s1);
  }

  /** A getter that reports and counts how often it has been called. */
  function CountingGetter(): LazyWrap<nat, nat> {
    LazyWrap(n => (n, n + 1))
  }

  /**
   * Construction stores the getter without calling it, and every access calls
   * it once more: starting from a count of `s`, `k` accesses see the counts
   * `s, s + 1, ..., s + k - 1` and leave the count at `s + k`.
   */
  lemma {:induction false} EveryAccessCallsGetter(s: nat, k: nat)
    ensures GetRepeatedly(CountingGetter(), s, k).0 == seq(k, i => s + i)
    ensures GetRepeatedly(CountingGetter(), s, k).1 == s + k
    decreases k
  {
    if k > 0 {
      EveryAccessCallsGetter(s + 1, k - 1);
      var xs := GetRepeatedly(CountingGetter(), s + 1, k - 1).0;
      assert [s] + xs == seq(k, i => s + i);
    }
  }

  /** A getter without side effects gives the same answer on every access in the same state. */
  lemma {:induction false} PureGetterRepeats<S, T>(w: LazyWrap<S, T>, f: S -> T, s: S, k: nat)
    requires forall x :: w.getter(x) == (f(x), x)
    ensures GetRepeatedly(w, s, k) == (seq(k, i => f(s)), s)
  {
    if k > 0 {
      PureGetterRepeats(w, f, s, k - 1);
      assert GetLazybones(w, s) == (f(s), s);
      var rest := GetRepeatedly(w, s, k - 1);
      assert GetRepeatedly(w, s, k) == ([f(s)] + rest.0, rest.1);
      assert [f(s)] + rest.0 == seq(k, i => f(s));
    } else {
      assert seq(0, i => f(s)) == [];
    }
  }
}

=== FILE: lazy_cast.dfy ===
/**
 * `lazy_cast<Derive, Base>` for a `std::shared_ptr<LazyWrap<std::shared_ptr<Derive>>>`:
 * a new wrapper whose getter calls the source wrapper's getter and
 * returns its object as a `std::shared_ptr<Base>`. Nothing is called when
 * the cast is made, and nothing is cached.
 */
module LazyCasts {
  import opened Wrappers
  import opened LazyWorld

  /**
   * The answer a cast wrapper is meant to give, computed from one call of its
   * source: null stays null, an object is seen as `base`, and a throw or
   * undefined behaviour passes through.
   */
  function UpcastOutcome(o: Outcome, base: TypeId): (r: Outcome)
    ensures r.Returned? <==> o.Returned?
    ensures r.Returned? ==> (r.ptr.None? <==> o.ptr.None?)
    ensures !o.Returned? ==> r == o
    ensures o.Returned? && o.ptr.Some? ==> r == Returned(Some(Ref(o.ptr.value.obj, base)))
  {
    match o
    case Returned(None) => Returned(None)
    case Returned(Some(p)) => Returned(Some(Ref(p.obj, base)))
    case _ => o
  }

  /**
   * `lazy_cast<deriveType, base>(derive)`: a null `derive` gives a null result;
   * otherwise a fresh wrapper around a getter that captured the source.
   */
  function LazyCast(w: World, derive: Option<WrapperId>, deriveType: TypeId, base: TypeId)
    : (res: (World, Option<WrapperId>))
    requires w.types.IsBaseOf(base, deriveType)
    requires derive.Some? ==> derive.value in w.wrappers && w.wrappers[derive.value].StaticType() == deriveType
    ensures derive.None? ==> res == (w, None)
    ensures derive.Some? ==> res.1.Some? && res.1.value in res.0.wrappers
                             && res.0.wrappers[res.1.value] == CastGetter(w.wrappers[derive.value], base)
    ensures forall id :: id in res.0.wrappers && id !in w.wrappers ==> res.1 == Some(id)
    ensures Valid(w) && res.1.Some? ==> res.1.value !in w.wrappers
    ensures res.0.owned == w.owned && res.0.hosts == w.hosts
    ensures Valid(w) ==> Valid(res.0) && Extends(w, res.0)
  {
    if derive.None? then (w, None)
    else
      var g := CastGetter(w.wrappers[derive.value], base);
      MakeLazyWrapPreservesValid(w, g);
      var (v, id) := MakeLazyWrap(w, g);
      (v, Some(id))
  }

  /** Calling a cast getter is calling its source once and upcasting the answer. */
  lemma CastEvaluation(w: World, src: Getter, base: TypeId)
    ensures Eval(w, CastGetter(src, base)) == UpcastOutcome(Eval(w, src), base)
  {
  }

  /**
   * The wrapper `lazy_cast` returns, called in any later world, answers what
   * its source answers in that same world, upcast: no stale result is kept.
   */
  lemma LazyCastWrapperEvaluation(w: World, derive: WrapperId, deriveType: TypeId, base: TypeId, v: World)
    requires w.types.IsBaseOf(base, deriveType)
    requires derive in w.wrappers && w.wrappers[derive].StaticType() == deriveType
    requires Valid(w)
    requires Extends(LazyCast(w, Some(derive), deriveType, base).0, v)
    ensures LazyCast(w, Some(derive), deriveType, base).1.value in v.wrappers
    ensures derive in v.wrappers
    ensures GetLazybones(v, LazyCast(w, Some(derive), deriveType, base).1.value)
         == UpcastOutcome(GetLazybones(v, derive), base)
  {
    var (u, id) := LazyCast(w, Some(derive), deriveType, base);
    ExtendsTransitive(w, u, v);
    CastEvaluation(v, w.wrappers[derive], base);
  }

  /**
   * A caller's own wrapper whose getter answers `nullptr`, cast to a base:
   * in every later world the cast wrapper answers null as well, through the
   * null test of the cast lambda.
   */
  lemma LazyCastOfNullAnswer(w: World, declared: TypeId, base: TypeId, v: World)
    requires Valid(w)
    requires w.types.IsBaseOf(base, declared)
    requires var (w1, src) := MakeLazyWrap(w, NullGetter(declared));
             Extends(LazyCast(w1, Some(src), declared, base).0, v)
    ensures var (w1, src) := MakeLazyWrap(w, NullGetter(declared));
            var r := LazyCast(w1, Some(src), declared, base).1;
            r.Some? && r.value in v.wrappers && src in v.wrappers
            && GetLazybones(v, src) == Returned(None)
            && GetLazybones(v, r.value) == Returned(None)
  {
    var (w1, src) := MakeLazyWrap(w, NullGetter(declared));
    MakeLazyWrapPreservesValid(w, NullGetter(declared));
    var (w2, r) := LazyCast(w1, Some(src), declared, base);
    ExtendsTransitive(w1, w2, v);
    assert v.wrappers[r.value] == CastGetter(NullGetter(declared), base);
  }

  /**
   * Casting to an intermediate class and then to its base is casting straight
   * to the base. (The C++ nesting also needs the intermediate class to expose
   * `shared_from_this()`; the model does not track which classes do.)
   */
  lemma CastComposes(w: World, src: Getter, mid: TypeId, base: TypeId)
    requires w.types.Transitive()
    requires WellTyped(w, CastGetter(CastGetter(src, mid), base))
    ensures Eval(w, CastGetter(CastGetter(src, mid), base)) == Eval(w, CastGetter(src, base))
  {
    CastEvaluation(w, src, mid);
    CastEvaluation(w, CastGetter(src, mid), base);
    CastEvaluation(w, src, base);
  }
}

=== FILE: lazy_from_this.dfy ===
/**
 * `enable_lazy_from_this<Type>`: the constructor installs a getter that
 * resolves the object to its own `std::shared_ptr`; `lazy_from_this()` hands
 * out one cached wrapper around that getter, and `lazy_from_this<Base>()`
 * a fresh `lazy_cast` of it on every call.
 */
module LazyFromThis {
  import opened Wrappers
  import opened LazyWorld
  import opened LazyCasts

  /**
   * Constructing an object of class `dynamicType` whose base is
   * `enable_lazy_from_this<declared>`: the constructor stores its getter and
   * leaves the cache empty; the getter is not called and no wrapper is made.
   */
  function NewHost(w: World, declared: TypeId, dynamicType: TypeId): (res: (World, ObjId))
    ensures Valid(w) ==> res.1 !in w.hosts
    ensures res.1 in res.0.hosts
    ensures res.0.hosts[res.1] == Host(declared, dynamicType, SelfGetter(res.1, declared), None)
    ensures forall h :: h in w.hosts && h != res.1 ==> h in res.0.hosts && res.0.hosts[h] == w.hosts[h]
    ensures res.0.hosts.Keys == w.hosts.Keys + {res.1}
    ensures res.0.owned == w.owned && res.0.wrappers == w.wrappers
  {
    var id := w.nextObj;
    (w.(hosts := w.hosts[id := Host(declared, dynamicType, SelfGetter(id, declared), None)], nextObj := id + 1), id)
  }

  /** A `std::shared_ptr` takes ownership of object `h` (the caller's `std::make_shared`). */
  function Own(w: World, h: ObjId): (v: World)
    requires h in w.hosts
    ensures v.owned == w.owned + {h}
    ensures Extends(w, v)
  {
    w.(owned := w.owned + {h})
  }

  /**
   * `lazy_from_this()`: fills the cache the first time, and from then on
   * returns the cached wrapper and changes nothing. It never calls the getter,
   * so it works whether or not the object is owned yet.
   */
  function LazyFromThis(w: World, h: ObjId): (res: (World, WrapperId))
    requires h in w.hosts
    ensures w.hosts[h].cache.Some? ==> res == (w, w.hosts[h].cache.value)
    ensures w.hosts[h].cache.None? ==> res.1 in res.0.wrappers && res.0.wrappers[res.1] == w.hosts[h].getter
    ensures Valid(w) && w.hosts[h].cache.None? ==> res.1 !in w.wrappers
    ensures h in res.0.hosts && res.0.hosts[h].cache == Some(res.1)
    ensures res.0.hosts == w.hosts[h := w.hosts[h].(cache := Some(res.1))]
    ensures res.0.wrappers.Keys <= w.wrappers.Keys + {res.1}
    ensures res.0.owned == w.owned
  {
    var host := w.hosts[h];
    if host.cache.Some? then (w, host.cache.value)
    else
      var (v, id) := MakeLazyWrap(w, host.getter);
      (v.(hosts := v.hosts[h := host.(cache := Some(id))]), id)
  }

  /**
   * `lazy_from_this<base>()`: a `lazy_cast` of the cached wrapper, filling the
   * cache first if it is empty. `base` must be a base of the declared type.
   */
  function LazyFromThisAs(w: World, h: ObjId, base: TypeId): (res: (World, WrapperId))
    requires Valid(w)
    requires h in w.hosts
    requires w.types.IsBaseOf(base, w.hosts[h].declared)
    ensures res.1 !in w.wrappers
    ensures res.1 in res.0.wrappers
    ensures res.0.wrappers[res.1] == CastGetter(SelfGetter(h, w.hosts[h].declared), base)
    ensures h in res.0.hosts && res.0.hosts[h].cache.Some? && res.0.hosts[h].cache != Some(res.1)
    ensures w.hosts[h].cache.Some? ==> res.0.hosts[h].cache == w.hosts[h].cache
    ensures res.0.hosts == w.hosts[h := w.hosts[h].(cache := res.0.hosts[h].cache)]
    ensures res.0.wrappers.Keys <= w.wrappers.Keys + {res.1, res.0.hosts[h].cache.value}
    ensures res.0.owned == w.owned
    ensures Valid(res.0) && Extends(w, res.0)
  {
    var (w1, src) := LazyFromThis(w, h);
    LazyFromThisPreservesValid(w, h);
    var (w2, r) := LazyCast(w1, Some(src), w.hosts[h].declared, base);
    ExtendsTransitive(w, w1, w2);
    (w2, r.value)
  }

  lemma NewHostPreservesValid(w: World, declared: TypeId, dynamicType: TypeId)
    requires Valid(w)
    ensures Valid(NewHost(w, declared, dynamicType).0)
    ensures Extends(w, NewHost(w, declared, dynamicType).0)
  {
    var v := NewHost(w, declared, dynamicType).0;
    forall id | id in v.wrappers
      ensures WellTyped(v, v.wrappers[id])
    {
      WellTypedPersists(w, v, v.wrappers[id]);
    }
  }

  lemma OwnPreservesValid(w: World, h: ObjId)
    requires Valid(w)
    requires h in w.hosts
    ensures Valid(Own(w, h))
  {
    var v := Own(w, h);
    forall id | id in v.wrappers
      ensures WellTyped(v, v.wrappers[id])
    {
      WellTypedPersists(w, v, v.wrappers[id]);
    }
  }

  lemma LazyFromThisPreservesValid(w: World, h: ObjId)
    requires Valid(w)
    requires h in w.hosts
    ensures Valid(LazyFromThis(w, h).0)
    ensures Extends(w, LazyFromThis(w, h).0)
  {
    var host := w.hosts[h];
    if host.cache.None? {
      var (v, id) := MakeLazyWrap(w, host.getter);
      MakeLazyWrapPreservesValid(w, host.getter);
      var u := v.(hosts := v.hosts[h := host.(cache := Some(id))]);
      assert u == LazyFromThis(w, h).0;
      assert Extends(v, u);
      ExtendsTransitive(w, v, u);
      forall i | i in u.wrappers
        ensures WellTyped(u, u.wrappers[i])
      {
        WellTypedPersists(v, u, u.wrappers[i]);
      }
    }
  }

  /** A second `lazy_from_this()` returns the same wrapper and changes nothing. */
  lemma LazyFromThisIdempotent(w: World, h: ObjId)
    requires h in w.hosts
    ensures LazyFromThis(LazyFromThis(w, h).0, h) == LazyFromThis(w, h)
  {
  }

  /**
   * Once `lazy_from_this()` has answered, every later call, in any later
   * world, returns that same wrapper and leaves the world as it is.
   */
  lemma LazyFromThisStable(w: World, h: ObjId, v: World)
    requires Valid(w)
    requires h in w.hosts
    requires Extends(LazyFromThis(w, h).0, v)
    ensures h in v.hosts
    ensures LazyFromThis(v, h) == (v, LazyFromThis(w, h).1)
  {
  }

  /**
   * The wrapper `lazy_from_this()` hands out, called in any later world,
   * yields an owning pointer to the object itself while it is owned and
   * throws `std::bad_weak_ptr` while it is not.
   */
  lemma SelfWrapperResolves(w: World, h: ObjId, v: World)
    requires Valid(w)
    requires SelfTyped(w, h)
    requires Extends(LazyFromThis(w, h).0, v)
    ensures LazyFromThis(w, h).1 in v.wrappers
    ensures GetLazybones(v, LazyFromThis(w, h).1)
         == if h in v.owned then Returned(Some(Ref(h, w.hosts[h].declared))) else BadWeakPtr
  {
    LazyFromThisPreservesValid(w, h);
    var (u, id) := LazyFromThis(w, h);
    ExtendsTransitive(w, u, v);
    assert v.wrappers[id] == SelfGetter(h, w.hosts[h].declared);
  }

  /**
   * If the object is not an instance of its declared `Type`, the getter's
   * `dynamic_cast` yields null and calling the wrapper is undefined.
   */
  lemma MisdeclaredHostIsUndefined(w: World, h: ObjId, v: World)
    requires Valid(w)
    requires h in w.hosts && !SelfTyped(w, h)
    requires Extends(LazyFromThis(w, h).0, v)
    ensures LazyFromThis(w, h).1 in v.wrappers
    ensures GetLazybones(v, LazyFromThis(w, h).1) == Undefined
  {
    LazyFromThisPreservesValid(w, h);
    var (u, id) := LazyFromThis(w, h);
    ExtendsTransitive(w, u, v);
    assert v.wrappers[id] == SelfGetter(h, w.hosts[h].declared);
  }

  /**
   * The wrapper `lazy_from_this<base>()` hands out resolves, in any later
   * world, to what the cached wrapper resolves to, seen as `base`: the same
   * object while it is owned.
   */
  lemma BaseWrapperResolves(w: World, h: ObjId, base: TypeId, v: World)
    requires Valid(w)
    requires SelfTyped(w, h)
    requires w.types.IsBaseOf(base, w.hosts[h].declared)
    requires Extends(LazyFromThisAs(w, h, base).0, v)
    ensures LazyFromThisAs(w, h, base).1 in v.wrappers
    ensures v.hosts[h].cache.Some? && v.hosts[h].cache.value in v.wrappers
    ensures GetLazybones(v, LazyFromThisAs(w, h, base).1)
         == UpcastOutcome(GetLazybones(v, v.hosts[h].cache.value), base)
    ensures GetLazybones(v, LazyFromThisAs(w, h, base).1)
         == if h in v.owned then Returned(Some(Ref(h, base))) else BadWeakPtr
  {
    var (u, id) := LazyFromThisAs(w, h, base);
    ExtendsTransitive(w, u, v);
    var declared := w.hosts[h].declared;
    assert v.hosts[h].getter == SelfGetter(h, declared);
    assert v.wrappers[v.hosts[h].cache.value] == SelfGetter(h, declared) by {
      assert u.wrappers[u.hosts[h].cache.value] == u.hosts[h].getter;
    }
    CastEvaluation(v, SelfGetter(h, declared), base);
  }

  /** Two calls of `lazy_from_this<base>()` give two different wrappers around the one cached wrapper. */
  lemma LazyFromThisAsIsFresh(w: World, h: ObjId, base: TypeId)
    requires Valid(w)
    requires h in w.hosts
    requires w.types.IsBaseOf(base, w.hosts[h].declared)
    ensures var (w1, a) := LazyFromThisAs(w, h, base);
            var (w2, b) := LazyFromThisAs(w1, h, base);
            a != b && w2.hosts[h].cache == w1.hosts[h].cache
  {
  }

  /**
   * Deferred resolution: a wrapper obtained before the object is owned
   * throws `std::bad_weak_ptr` then, and the very same wrapper yields the
   * object once a `std::shared_ptr` owns it.
   */
  lemma ResolutionIsDeferred(w: World, h: ObjId)
    requires Valid(w)
    requires SelfTyped(w, h) && h !in w.owned
    ensures var (w1, id) := LazyFromThis(w, h);
            GetLazybones(w1, id) == BadWeakPtr
            && id in Own(w1, h).wrappers
            && GetLazybones(Own(w1, h), id) == Returned(Some(Ref(h, w.hosts[h].declared)))
  {
    var (w1, id) := LazyFromThis(w, h);
    LazyFromThisPreservesValid(w, h);
    SelfWrapperResolves(w, h, w1);
    SelfWrapperResolves(w, h, Own(w1, h));
  }

  /** The world before anything is constructed. */
  function EmptyWorld(types: Hierarchy): (w: World)
    requires types.Transitive()
    ensures Valid(w)
  {
    World(types, map[], {}, map[], 0, 0)
  }

  /**
   * `Base` (class 0) derives from `enable_lazy_from_this<Base>` and `Derived`
   * (class 1) from `Base`. A `Derived` object `d` made by `std::make_shared`:
   * `d->lazy_from_this()` resolves to `d`, and `d->lazy_from_this<Base>()`
   * resolves to the same object, through a new wrapper on every call.
   */
  lemma DerivedScenario()
    ensures var w0 := EmptyWorld(Hierarchy({(0, 1)}));
            var (w1, d) := NewHost(w0, 0, 1);
            var w2 := Own(w1, d);
            var (w3, self) := LazyFromThis(w2, d);
            var (w4, viaBase) := LazyFromThisAs(w3, d, 0);
            var (w5, again) := LazyFromThisAs(w4, d, 0);
            && GetLazybones(w5, self) == Returned(Some(Ref(d, 0)))
            && GetLazybones(w5, viaBase) == Returned(Some(Ref(d, 0)))
            && again != viaBase
            && LazyFromThis(w5, d) == (w5, self)
  {
    var types := Hierarchy({(0, 1)});
    var w0 := EmptyWorld(types);
    var (w1, d) := NewHost(w0, 0, 1);
    NewHostPreservesValid(w0, 0, 1);
    var w2 := Own(w1, d);
    OwnPreservesValid(w1, d);
    var (w3, self) := LazyFromThis(w2, d);
    LazyFromThisPreservesValid(w2, d);
    var (w4, viaBase) := LazyFromThisAs(w3, d, 0);
    var (w5, again) := LazyFromThisAs(w4, d, 0);
    ExtendsTransitive(w3, w4, w5);
    SelfWrapperResolves(w2, d, w5);
    BaseWrapperResolves(w3, d, 0, w5);
    LazyFromThisStable(w2, d, w5);
  }

  /**
   * `Derived` (class 1) derives from `enable_lazy_from_this<Derived>` and from
   * a plain `Base` (class 0). For a `Derived` object `d` made by
   * `std::make_shared`, `d->lazy_from_this()` gives `d` as a `Derived`, and
   * `d->lazy_from_this<Base>()` gives the same object upcast to `Base`.
   */
  lemma StrictUpcastScenario()
    ensures var w0 := EmptyWorld(Hierarchy({(0, 1)}));
            var (w1, d) := NewHost(w0, 1, 1);
            var w2 := Own(w1, d);
            var (w3, self) := LazyFromThis(w2, d);
            var (w4, viaBase) := LazyFromThisAs(w3, d, 0);
            && GetLazybones(w4, self) == Returned(Some(Ref(d, 1)))
            && GetLazybones(w4, viaBase) == Returned(Some(Ref(d, 0)))
  {
    var w0 := EmptyWorld(Hierarchy({(0, 1)}));
    var (w1, d) := NewHost(w0, 1, 1);
    NewHostPreservesValid(w0, 1, 1);
    var w2 := Own(w1, d);
    OwnPreservesValid(w1, d);
    var (w3, self) := LazyFromThis(w2, d);
    LazyFromThisPreservesValid(w2, d);
    var (w4, viaBase) := LazyFromThisAs(w3, d, 0);
    SelfWrapperResolves(w2, d, w4);
    BaseWrapperResolves(w3, d, 0, w4);
  }
}

=== FILE: lazy_world.dfy ===
/**
 * The world in which `enable_lazy_from_this` and `lazy_cast` operate: a class
 * hierarchy, host objects, which of them are currently managed by a
 * `std::shared_ptr`, and the heap of `LazyWrap` objects they hand out.
 *
 * The getters the library builds are closures; here each one is a
 * `Getter` value naming the closure and what it captured, and `Eval` is what
 * calling it does in a given world. A `LazyWrap<std::shared_ptr<T>>` on the
 * heap is its getter, under a `WrapperId`.
 */
module LazyWorld {
  import opened Wrappers
  import Lazy

  type TypeId = nat
  type ObjId = nat
  type WrapperId = nat

  /** The class hierarchy: `strictBases` holds the (base, derived) pairs of distinct classes. */
  datatype Hierarchy = Hierarchy(strictBases: set<(TypeId, TypeId)>) {

    /** `std::is_base_of_v<Base, Derived>`: every class is a base of itself. */
    predicate IsBaseOf(base: TypeId, derived: TypeId) {
      base == derived || (base, derived) in strictBases
    }

    /** A base of a base is a base. */
    ghost predicate Transitive() {
      forall a, b, c :: (a, b) in strictBases && (b, c) in strictBases ==> (a, c) in strictBases
    }
  }

  /** A non-null `std::shared_ptr`: the object it owns, seen through the static type `view`. */
  datatype Ref = Ref(obj: ObjId, view: TypeId)

  /**
   * What calling a getter does: return a possibly null `std::shared_ptr`,
   * throw `std::bad_weak_ptr`, or reach behaviour the language leaves
   * undefined (a member call through a null pointer).
   */
  datatype Outcome = Returned(ptr: Option<Ref>) | BadWeakPtr | Undefined

  /** The closures the library builds as getters, and a caller's own null getter. */
  datatype Getter =
      /** The lambda installed by the `enable_lazy_from_this<declared>` constructor of object `host`. */
    | SelfGetter(host: ObjId, declared: TypeId)
      /** The lambda `lazy_cast<Derive, base>` builds around the source wrapper it captured. */
    | CastGetter(source: Getter, base: TypeId)
      /** A caller's own `LazyWrap<std::shared_ptr<declared>>` whose getter returns `nullptr`. */
    | NullGetter(declared: TypeId)
  {
    /** The `T` of the `std::shared_ptr<T>` the getter returns. */
    function StaticType(): TypeId {
      match this
      case SelfGetter(_, t) => t
      case CastGetter(_, b) => b
      case NullGetter(t) => t
    }

    /** The getter ultimately asks an object for its self-reference, rather than answering null. */
    predicate HasRoot() {
      match this
      case SelfGetter(_, _) => true
      case CastGetter(src, _) => src.HasRoot()
      case NullGetter(_) => false
    }

    /** The object whose self-reference the getter ultimately asks for. */
    function Root(): ObjId
      requires HasRoot()
    {
      match this
      case SelfGetter(h, _) => h
      case CastGetter(src, _) => src.Root()
    }
  }

  /**
   * An object with an `enable_lazy_from_this<declared>` base whose most-derived
   * class is `dynamicType`: its `_lazybonesGetter` and `_cachedLazyWrap`.
   */
  datatype Host = Host(declared: TypeId, dynamicType: TypeId, getter: Getter, cache: Option<WrapperId>)

  datatype World = World(
    types: Hierarchy,
    hosts: map<ObjId, Host>,
    owned: set<ObjId>,
    wrappers: map<WrapperId, Getter>,
    nextObj: ObjId,
    nextWrapper: WrapperId
  )

  /**
   * `obj->shared_from_this()` viewed as `view`: an owning pointer to the
   * object itself while some `std::shared_ptr` manages it, and
   * `std::bad_weak_ptr` otherwise.
   */
  function SharedFromThis(w: World, obj: ObjId, view: TypeId): (o: Outcome)
    ensures o == BadWeakPtr || o == Returned(Some(Ref(obj, view)))
  {
    if obj in w.owned then Returned(Some(Ref(obj, view))) else BadWeakPtr
  }

  /** Calling getter `g` in world `w`. */
  function Eval(w: World, g: Getter): (o: Outcome)
    ensures o.Returned? && o.ptr.Some? ==> o.ptr.value.obj in w.owned && o.ptr.value.view == g.StaticType()
  {
    match g
    case SelfGetter(h, t) =>
      // `dynamic_cast<Type*>(this)` is null unless the object really is a `Type`,
      // and `shared_from_this()` is then called through that null pointer.
      if h in w.hosts && w.types.IsBaseOf(t, w.hosts[h].dynamicType) then SharedFromThis(w, h, t)
      else Undefined
    case CastGetter(src, base) =>
      // The captured wrapper pointer is never null; `getLazybones()` is called
      // once for the null test and once more for the result.
      var first := Eval(w, src);
      if !first.Returned? then first
      else if first.ptr.None? then Returned(None)
      else
        var second := Eval(w, src);
        if !second.Returned? then second
        else if second.ptr.None? then Undefined
        else SharedFromThis(w, second.ptr.value.obj, base)
    case NullGetter(_) => Returned(None)
  }

  /** The getter only captures objects that exist and hands out views the hierarchy allows. */
  predicate WellTyped(w: World, g: Getter) {
    match g
    case SelfGetter(h, t) => h in w.hosts && w.hosts[h].declared == t
    case CastGetter(src, base) => WellTyped(w, src) && w.types.IsBaseOf(base, src.StaticType())
    case NullGetter(_) => true
  }

  /** The object's `enable_lazy_from_this<Type>` names a class the object really is. */
  predicate SelfTyped(w: World, h: ObjId) {
    h in w.hosts && w.types.IsBaseOf(w.hosts[h].declared, w.hosts[h].dynamicType)
  }

  /** The invariant every reachable world keeps. */
  ghost predicate Valid(w: World) {
    && w.types.Transitive()
    && w.owned <= w.hosts.Keys
    && (forall h :: h in w.hosts ==> h < w.nextObj)
    && (forall id :: id in w.wrappers ==> id < w.nextWrapper)
    && (forall h :: h in w.hosts ==> w.hosts[h].getter == SelfGetter(h, w.hosts[h].declared))
    && (forall h :: h in w.hosts && w.hosts[h].cache.Some? ==>
          w.hosts[h].cache.value in w.wrappers && w.wrappers[w.hosts[h].cache.value] == w.hosts[h].getter)
    && (forall id :: id in w.wrappers ==> WellTyped(w, w.wrappers[id]))
  }

  /**
   * `v` is a later state of `w`: objects and wrappers persist unchanged, a
   * filled cache stays filled with the same wrapper, and an owned object
   * stays owned (releasing the last owner destroys the object, after which
   * its getters dangle). Only new ownership and empty caches may change.
   */
  ghost predicate Extends(w: World, v: World) {
    && v.types == w.types
    && (forall h :: h in w.hosts ==> h in v.hosts && v.hosts[h].declared == w.hosts[h].declared
                                       && v.hosts[h].dynamicType == w.hosts[h].dynamicType
                                       && v.hosts[h].getter == w.hosts[h].getter
                                       && (w.hosts[h].cache.Some? ==> v.hosts[h].cache == w.hosts[h].cache))
    && (forall id :: id in w.wrappers ==> id in v.wrappers && v.wrappers[id] == w.wrappers[id])
    && w.owned <= v.owned
  }

  lemma ExtendsTransitive(u: World, v: World, w: World)
    requires Extends(u, v) && Extends(v, w)
    ensures Extends(u, w)
  {
  }

  lemma {:induction false} WellTypedPersists(w: World, v: World, g: Getter)
    requires Extends(w, v)
    requires WellTyped(w, g)
    ensures WellTyped(v, g)
  {
    match g
    case SelfGetter(_, _) =>
    case CastGetter(src, _) => WellTypedPersists(w, v, src);
    case NullGetter(_) =>
  }

  /**
   * Whatever chain of casts a getter is, calling it resolves to its root
   * object, seen as the getter's static type, while that object is owned,
   * and throws `std::bad_weak_ptr` while it is not.
   */
  lemma {:induction false} EvalResolvesToRoot(w: World, g: Getter)
    requires WellTyped(w, g)
    requires g.HasRoot()
    requires SelfTyped(w, g.Root())
    ensures Eval(w, g) == if g.Root() in w.owned then Returned(Some(Ref(g.Root(), g.StaticType()))) else BadWeakPtr
  {
    match g
    case SelfGetter(_, _) =>
    case CastGetter(src, _) => EvalResolvesToRoot(w, src);
  }

  /** A getter chain that bottoms out in a null getter answers null, whatever the world. */
  lemma {:induction false} EvalOfNullChain(w: World, g: Getter)
    requires !g.HasRoot()
    ensures Eval(w, g) == Returned(None)
  {
    match g
    case CastGetter(src, _) => EvalOfNullChain(w, src);
    case NullGetter(_) =>
  }

  /** `std::make_shared<LazyWrap<...>>(getter)`: the getter is stored under a fresh id, and not called. */
  function MakeLazyWrap(w: World, g: Getter): (res: (World, WrapperId))
    ensures Valid(w) ==> res.1 !in w.wrappers
    ensures res.1 in res.0.wrappers && res.0.wrappers[res.1] == g
    ensures res.0.wrappers.Keys == w.wrappers.Keys + {res.1}
    ensures res.0.owned == w.owned && res.0.hosts == w.hosts && res.0.types == w.types
    ensures Valid(w) ==> Extends(w, res.0)
  {
    var id := w.nextWrapper;
    (w.(wrappers := w.wrappers[id := g], nextWrapper := id + 1), id)
  }

  /** Storing a well-typed getter keeps the world valid. */
  lemma MakeLazyWrapPreservesValid(w: World, g: Getter)
    ensures Valid(w) && WellTyped(w, g) ==> Valid(MakeLazyWrap(w, g).0)
  {
    if Valid(w) && WellTyped(w, g) {
      var v := MakeLazyWrap(w, g).0;
      forall id | id in v.wrappers
        ensures WellTyped(v, v.wrappers[id])
      {
        WellTypedPersists(w, v, v.wrappers[id]);
      }
    }
  }

  /** `wrapper->getLazybones()`: the stored getter is called in the world as it is now. */
  function GetLazybones(w: World, id: WrapperId): (o: Outcome)
    requires id in w.wrappers
    ensures o.Returned? && o.ptr.Some? ==> o.ptr.value.obj in w.owned
  {
    Eval(w, w.wrappers[id])
  }

  /** A wrapper seen as a generic `LazyWrap` whose getter reads the world and leaves it as it was. */
  function AsLazyWrap(g: Getter): Lazy.LazyWrap<World, Outcome> {
    Lazy.LazyWrap(w => (Eval(w, g), w))
  }

  /**
   * The getters the library builds have no side effects: `k` calls in a row
   * give `k` times the answer for the current world and leave it unchanged.
   * Purity is part of how these getters are modelled (`AsLazyWrap` returns the
   * world it was given), not a fact proved about them: the C++ lambdas only
   * read the object and its ownership, and this lemma records what that
   * choice means for repeated access.
   */
  lemma GettersHaveNoSideEffects(g: Getter, w: World, k: nat)
    ensures Lazy.GetRepeatedly(AsLazyWrap(g), w, k) == (seq(k, i => Eval(w, g)), w)
  {
    Lazy.PureGetterRepeats(AsLazyWrap(g), x => Eval(x, g), w, k);
  }
}

=== FILE: swap_endian.dfy ===
/**
 * `utils::swapEndian`: a fixed-width value is viewed through a union as its
 * `sizeof(Type)` bytes, the bytes are copied in reverse order into a second
 * union, and that union is read back as a `Type`.
 */
module SwapEndian {
  import opened Bytes

  /**
   * The `std::copy` from `rbegin()` to `rend()` into `begin()`: the reverse
   * iterator yields the last byte first, and the destination is filled front
   * to back.
   */
  function SwapBytes(source: seq<byte>): (destination: seq<byte>)
    ensures |destination| == |source|
    ensures forall i :: 0 <= i < |source| ==> destination[i] == source[|source| - 1 - i]
  {
    if |source| == 0 then []
    else [source[|source| - 1]] + SwapBytes(source[..|source| - 1])
  }

  /** Reversing the bytes twice restores them. */
  lemma SwapBytesInvolution(s: seq<byte>)
    ensures SwapBytes(SwapBytes(s)) == s
  {
  }

  /** Reading reversed bytes little-endian is reading the original bytes big-endian. */
  lemma {:induction false} SwapBytesReversesByteOrder(s: seq<byte>)
    ensures DecodeLE(SwapBytes(s)) == DecodeBE(s)
  {
    if |s| > 0 {
      var n := |s|;
      var r := SwapBytes(s);
      assert r[1..] == SwapBytes(s[..n - 1]);
      SwapBytesReversesByteOrder(s[..n - 1]);
    }
  }

  /** Either byte order: the reversed image read in `e` is the original image read the other way. */
  lemma SwapBytesDecode(e: Endian, s: seq<byte>)
    ensures Decode(e, SwapBytes(s)) == Decode(e.Opposite(), s)
  {
    SwapBytesReversesByteOrder(s);
    if e == Big {
      SwapBytesInvolution(s);
      SwapBytesReversesByteOrder(SwapBytes(s));
    }
  }

  /**
   * `swapEndian<Type>(value)` for an integer `Type` on a `host` machine: the
   * result is again a `Type`, and its image is the input's image reversed.
   */
  function SwapEndian(t: IntType, host: Endian, value: int): (r: int)
    requires t.Contains(value)
    ensures t.Contains(r)
    ensures BytesOf(t, host, r) == SwapBytes(BytesOf(t, host, value))
  {
    var swapped := SwapBytes(BytesOf(t, host, value));
    BytesOfValueOf(t, host, swapped);
    ValueOf(t, host, swapped)
  }

  /** Byte `i` of the result is byte `sizeof(Type) - 1 - i` of the input. */
  lemma SwapEndianBytewise(t: IntType, host: Endian, value: int, i: nat)
    requires t.Contains(value)
    requires i < t.size
    ensures BytesOf(t, host, SwapEndian(t, host, value))[i] == BytesOf(t, host, value)[t.size - 1 - i]
  {
  }

  /** Swapping twice gives back the original value. */
  lemma SwapEndianInvolution(t: IntType, host: Endian, value: int)
    requires t.Contains(value)
    ensures SwapEndian(t, host, SwapEndian(t, host, value)) == value
  {
    var once := SwapEndian(t, host, value);
    var twice := SwapEndian(t, host, once);
    SwapBytesInvolution(BytesOf(t, host, value));
    assert BytesOf(t, host, twice) == BytesOf(t, host, value);
    assert ValueOf(t, host, BytesOf(t, host, twice)) == ValueOf(t, host, BytesOf(t, host, value));
  }

  /** A one-byte value has nothing to reorder. */
  lemma SwapEndianOneByte(t: IntType, host: Endian, value: int)
    requires t.Contains(value)
    requires t.size == 1
    ensures SwapEndian(t, host, value) == value
  {
    var b := BytesOf(t, host, value);
    assert SwapBytes(b) == b;
    assert ValueOf(t, host, BytesOf(t, host, SwapEndian(t, host, value))) == ValueOf(t, host, b);
  }

  /**
   * Swapping is reading the value's own image in the opposite byte order,
   * an independent characterisation of the result.
   */
  lemma SwapEndianReadsOppositeOrder(t: IntType, host: Endian, value: int)
    requires t.Contains(value)
    ensures SwapEndian(t, host, value) == ValueOf(t, host.Opposite(), BytesOf(t, host, value))
  {
    SwapBytesDecode(host, BytesOf(t, host, value));
  }

  /** The result does not depend on the byte order of the host. */
  lemma SwapEndianHostIndependent(t: IntType, value: int)
    requires t.Contains(value)
    ensures SwapEndian(t, Little, value) == SwapEndian(t, Big, value)
  {
    var le := BytesOf(t, Little, value);
    var be := BytesOf(t, Big, value);
    var u := ToBits(t, value);
    // Both images encode the same bit pattern, so one is the other reversed.
    SwapBytesReversesByteOrder(be);
    DecodeEncodeBE(t.size, u);
    DecodeEncodeLE(t.size, u);
    EncodeDecodeLE(SwapBytes(be));
    assert SwapBytes(be) == le;
    SwapBytesInvolution(be);
    SwapEndianReadsOppositeOrder(t, Little, value);
    SwapEndianReadsOppositeOrder(t, Big, value);
  }

  /** On a little-endian host the image of `value` is `bytes`, so swapping yields the reversed reading. */
  lemma SwapEndianLittleImage(t: IntType, value: int, bytes: seq<byte>)
    requires !t.signed && |bytes| == t.size
    requires DecodeLE(bytes) == value
    ensures SwapEndian(t, Little, value) == DecodeLE(SwapBytes(bytes))
  {
    BytesOfValueOf(t, Little, bytes);
  }

  /** The documented example: `0x22224444` swaps to `0x44442222`. */
  lemma SwapEndianDocExample(host: Endian)
    ensures SwapEndian(U32, host, 0x2222_4444) == 0x4444_2222
  {
    SwapEndianHostIndependent(U32, 0x2222_4444);
    var b: seq<byte> := [0x44, 0x44, 0x22, 0x22];
    DecodeLE4(0x44, 0x44, 0x22, 0x22);
    SwapEndianLittleImage(U32, 0x2222_4444, b);
    assert SwapBytes(b) == [0x22, 0x22, 0x44, 0x44];
    DecodeLE4(0x22, 0x22, 0x44, 0x44);
  }

  /** `0x12345678` swaps to `0x78563412`. */
  lemma SwapEndianScenario(host: Endian)
    ensures SwapEndian(U32, host, 0x1234_5678) == 0x7856_3412
  {
    SwapEndianHostIndependent(U32, 0x1234_5678);
    var b: seq<byte> := [0x78, 0x56, 0x34, 0x12];
    DecodeLE4(0x78, 0x56, 0x34, 0x12);
    SwapEndianLittleImage(U32, 0x1234_5678, b);
    assert SwapBytes(b) == [0x12, 0x34, 0x56, 0x78];
    DecodeLE4(0x12, 0x34, 0x56, 0x78);
  }
}

=== FILE: use_bytes_as.dfy ===
/**
 * `utils::useBytesAs<OutputType>(container, offset)`: copies
 * `sizeof(OutputType)` bytes out of a `std::vector` or `std::array` of
 * `InputType` elements into an `OutputType` and returns it.
 */
module UseBytesAs {
  import opened Bytes

  /**
   * A contiguous container seen as its memory image: `data` holds the bytes
   * of its `size` elements, each `elemSize` (`sizeof(InputType)`) bytes long.
   */
  datatype Container = Container(data: seq<byte>, elemSize: Width, size: nat) {

    /** The image is exactly `size` elements long. */
    predicate Valid() {
      |data| == size * elemSize
    }

    /**
     * The byte that `container.data() + k` points at: adding `k` to an
     * `InputType*` advances `k` whole elements.
     */
    function ElementAddress(k: nat): nat {
      k * elemSize
    }
  }

  /** `std::memcpy` of `count` bytes starting at byte `from`, one byte at a time. */
  function Memcpy(src: seq<byte>, from: nat, count: nat): (dst: seq<byte>)
    requires from + count <= |src|
    ensures dst == src[from..from + count]
    decreases count
  {
    if count == 0 then []
    else [src[from]] + Memcpy(src, from + 1, count - 1)
  }

  /** The window `useBytesAs` is meant to read: `out.size` bytes from element `offset` on. */
  predicate InBounds(c: Container, out: IntType, offset: nat) {
    offset * c.elemSize + out.size <= |c.data|
  }

  /**
   * `useBytesAs<OutputType>(container, offset)` with the offset counted in
   * container elements, i.e. starting at byte `offset * sizeof(InputType)`.
   * The source performs no bounds check, so the window must lie inside the
   * container.
   */
  function UseBytesAs(c: Container, out: IntType, host: Endian, offset: nat): (r: int)
    requires c.Valid()
    requires InBounds(c, out, offset)
    ensures out.Contains(r)
    ensures BytesOf(out, host, r) == c.data[offset * c.elemSize .. offset * c.elemSize + out.size]
  {
    var from := c.ElementAddress(offset);
    var bytes := Memcpy(c.data, from, out.size);
    BytesOfValueOf(out, host, bytes);
    ValueOf(out, host, bytes)
  }

  /** Bytes outside the window do not affect the result. */
  lemma UseBytesAsReadsNothingElse(c: Container, d: Container, out: IntType, host: Endian, offset: nat)
    requires c.Valid() && d.Valid()
    requires c.elemSize == d.elemSize
    requires InBounds(c, out, offset) && InBounds(d, out, offset)
    requires forall i :: offset * c.elemSize <= i < offset * c.elemSize + out.size ==> c.data[i] == d.data[i]
    ensures UseBytesAs(c, out, host, offset) == UseBytesAs(d, out, host, offset)
  {
    var lo := offset * c.elemSize;
    assert c.data[lo .. lo + out.size] == d.data[lo .. lo + out.size];
  }

  /** The default `offset = 0` reads the first `sizeof(OutputType)` bytes. */
  lemma UseBytesAsDefaultOffset(c: Container, out: IntType, host: Endian)
    requires c.Valid()
    requires out.size <= |c.data|
    ensures UseBytesAs(c, out, host, 0) == ValueOf(out, host, c.data[..out.size])
  {
  }

  /** The container with its first `k` elements removed. */
  function DropElements(c: Container, k: nat): (d: Container)
    requires c.Valid()
    requires k <= c.size
    ensures d.Valid()
    ensures d.elemSize == c.elemSize
    ensures d.size == c.size - k
    ensures forall i :: 0 <= i < |d.data| ==> d.data[i] == c.data[k * c.elemSize + i]
  {
    LemmaElementsFit(c, k);
    Container(c.data[k * c.elemSize..], c.elemSize, c.size - k)
  }

  lemma LemmaElementsFit(c: Container, k: nat)
    requires c.Valid()
    requires k <= c.size
    ensures k * c.elemSize <= |c.data|
    ensures |c.data| - k * c.elemSize == (c.size - k) * c.elemSize
  {
    assert (c.size - k) * c.elemSize == c.size * c.elemSize - k * c.elemSize;
  }

  /** Advancing the offset by `k` elements is reading past the first `k` elements. */
  lemma UseBytesAsShift(c: Container, out: IntType, host: Endian, offset: nat, k: nat)
    requires c.Valid()
    requires InBounds(c, out, offset + k)
    ensures k <= c.size
    ensures UseBytesAs(c, out, host, offset + k) == UseBytesAs(DropElements(c, k), out, host, offset)
  {
    var es := c.elemSize;
    LemmaShiftFits(c, out, offset, k);
    var d := DropElements(c, k);
    var lo := (offset + k) * es;
    assert lo == k * es + offset * es;
    assert d.data[offset * es .. offset * es + out.size] == c.data[lo .. lo + out.size];
  }

  lemma LemmaShiftFits(c: Container, out: IntType, offset: nat, k: nat)
    requires c.Valid()
    requires InBounds(c, out, offset + k)
    ensures k <= c.size
  {
    var es := c.elemSize;
    assert (offset + k) * es >= k * es;
    assert k * es < c.size * es;
  }

  /** A container of one-byte elements given by their values. */
  function ByteContainer(values: seq<byte>): (c: Container)
    ensures c.Valid() && c.size == |values|
  {
    Container(values, 1, |values|)
  }

  /**
   * The documented example `{2, 4, 12, 5}` read as `uint16_t` and `uint32_t`
   * on a little-endian host: `0x0402` and `0x050C0402`.
   */
  lemma UseBytesAsDocExample()
    ensures UseBytesAs(ByteContainer([2, 4, 12, 5]), U16, Little, 0) == 0x0402
    ensures UseBytesAs(ByteContainer([2, 4, 12, 5]), U32, Little, 0) == 0x050C_0402
  {
    var c := ByteContainer([2, 4, 12, 5]);
    assert c.data[0..2] == [2, 4];
    assert c.data[0..4] == [2, 4, 12, 5];
    var s2: seq<byte> := [2, 4];
    assert s2[1..] == [4];
    assert DecodeLE(s2) == 0x0402;
    DecodeLE4(2, 4, 12, 5);
  }

  /** The same data read as `uint16_t` on a big-endian host: `0x0204`. */
  lemma UseBytesAsBigEndianExample()
    ensures UseBytesAs(ByteContainer([2, 4, 12, 5]), U16, Big, 0) == 0x0204
  {
    var c := ByteContainer([2, 4, 12, 5]);
    assert c.data[0..2] == [2, 4];
    var s2: seq<byte> := [2, 4];
    assert s2[..1] == [2];
    assert DecodeBE(s2) == 0x0204;
  }

  /**
   * `useBytesAs` exactly as written: `container.data() + offset *
   * sizeof(InputType)` adds `offset * sizeof(InputType)` ELEMENTS to the
   * typed pointer, so the copy starts at byte `offset * sizeof(InputType)^2`.
   */
  function UseBytesAsWritten(c: Container, out: IntType, host: Endian, offset: nat): (r: int)
    requires c.Valid()
    requires c.ElementAddress(offset * c.elemSize) + out.size <= |c.data|
    ensures out.Contains(r)
    ensures BytesOf(out, host, r)
         == c.data[offset * c.elemSize * c.elemSize .. offset * c.elemSize * c.elemSize + out.size]
  {
    var bytes := Memcpy(c.data, c.ElementAddress(offset * c.elemSize), out.size);
    BytesOfValueOf(out, host, bytes);
    ValueOf(out, host, bytes)
  }

  /** With one-byte elements, as in the documented examples, the two agree. */
  lemma WrittenAgreesOnByteContainers(c: Container, out: IntType, host: Endian, offset: nat)
    requires c.Valid() && c.elemSize == 1
    requires InBounds(c, out, offset)
    ensures UseBytesAsWritten(c, out, host, offset) == UseBytesAs(c, out, host, offset)
  {
  }

  /**
   * A `uint16_t` container holding 1, 2, 3, 4 on a little-endian host: the
   * element at offset 1 is 2, but the code as written returns element 2.
   */
  lemma WrittenSkipsElements()
    ensures UseBytesAs(Container([1, 0, 2, 0, 3, 0, 4, 0], 2, 4), U16, Little, 1) == 2
    ensures UseBytesAsWritten(Container([1, 0, 2, 0, 3, 0, 4, 0], 2, 4), U16, Little, 1) == 3
  {
    var c := Container([1, 0, 2, 0, 3, 0, 4, 0], 2, 4);
    assert c.data[2..4] == [2, 0];
    assert c.data[4..6] == [3, 0];
    var a: seq<byte> := [2, 0];
    var b: seq<byte> := [3, 0];
    assert a[1..] == [0] && b[1..] == [0];
    assert DecodeLE(a) == 2 && DecodeLE(b) == 3;
  }
}

=== FILE: wrappers.dfy ===
/** Optional values, standing in for the null / non-null states of a pointer. */
module Wrappers {

  datatype Option<+T> = None | Some(value: T)
}
